=== FILE: README.md ===
# Home screen of the StudX exchange marketplace, in Dafny

This project models the client-side core of the StudX home screen. The screen
lists the public feed of exchange offers ("Exchanges Available") and the
signed-in user's own offers ("My Exchanges"). Each of the user's own cards can
edit or delete its offer.

Two parts are modelled.

- **`Home`** models `Home.js`. The screen's state record is `exchanges`,
  `myExchanges`, `loading`, `refreshing`, `error`, `userName` and
  `userEmail`. Each handler is a pure function from a state to a `Step`: the
  next state plus the work it starts (reading the stored credentials, a GET
  request, the welcome fade-in). A request's reply is a separate event that
  carries the server's answer. `Run` applies any sequence of events, so replies
  may settle in any order. The module also covers the render-branch choice and
  the reversed display order.
- **`OwnExchange`** models `OwnExchangesTarget.js`:
  - the flag and level-colour lookups with their fallbacks;
  - the language search;
  - the digit-only students field and its initial text;
  - the `DD-MM-YYYY` date format;
  - the edit form;
  - the guards and reply handling of the delete and edit requests.

  A request is returned as a `Command` value (`NoCall(reason)`, `SendDelete`,
  `SendPut`). The alert and the callbacks it triggers are returned as outcome
  values.

Supporting modules:

- `Seqs`: order-preserving filter and reversal.
- `Text`: decimal printing and parsing, `padStart`, lower case, `includes`.
- `Http`: a reply is `Reply(status, body)` or `Unreachable(message)`, and
  `Ok()` means a 2xx status.
- `Offers`: the exchange record.
- `Optional`: `Option`.

Things the model takes as inputs instead of reading them itself:

- the stored token and email, or the secure store's failure to read the token;
- each server reply, including a body that does not parse as JSON;
- the date picker's choice;
- whether an `onDeleteSuccess` prop was given.

## Model

| member | source | states |
|---|---|---|
| Home.Mount | front/StudX/src/screens/HomeScreens/Home.js:33-50 | The first render has both lists empty, the spinner on, no refresh indicator, no error, the name "Usuario" and no email. Mounting starts exactly two things: reading the credentials and one public GET. The owned-feed effect runs with the empty email and requests nothing. |
| Home.FetchMyExchanges | front/StudX/src/screens/HomeScreens/Home.js:97-100 | Starting the owned fetch never changes state. An empty email means no request at all. Otherwise exactly one GET is sent, scoped to that email. |
| Home.CredentialsRead | front/StudX/src/screens/HomeScreens/Home.js:48-61 | A missing or empty token or email changes nothing and starts nothing. With both present, the email is stored before the identity reply arrives. Exactly one identity GET starts, followed by exactly one owned GET for the new email when the stored email changed, and nothing else. |
| Home.IdentitySettled | front/StudX/src/screens/HomeScreens/Home.js:61-75 | An ok, parsed reply sets the name to `data.name`, or to "Usuario" when that is missing or empty, so the name is never empty; the welcome then fades in. Any other reply leaves the state untouched. |
| Home.ExchangesSettled | front/StudX/src/screens/HomeScreens/Home.js:78-95 | A delivered feed replaces the public list wholesale and clears the error. A failure raises the error and keeps the old list. Either way loading and refreshing end, and the own list, name and email are untouched. |
| Home.MyExchangesSettled | front/StudX/src/screens/HomeScreens/Home.js:97-110 | A delivered feed replaces the own list and changes nothing else. A failed or unparsable reply leaves the whole state as it was. |
| Home.Refresh | front/StudX/src/screens/HomeScreens/Home.js:112-116 | The refresh indicator turns on and nothing else in the state changes. Exactly one public GET starts, then exactly one owned GET for the known email when there is one, and nothing else. |
| Home.RemoveById | front/StudX/src/screens/HomeScreens/Home.js:119 | No survivor carries the deleted id. Every element with another id survives, and nothing new appears. |
| Home.DeleteSucceeded | front/StudX/src/screens/HomeScreens/Home.js:118-121 | A confirmed delete leaves the own list as the id-filtered list, so no survivor has the id, every other offer survives, and the survivors keep their order (`DeleteKeepsOrder`). It starts exactly one public re-fetch and no owned fetch. Everything except the own list is unchanged. |
| Home.DeleteRemovesExactlyOne | front/StudX/src/screens/HomeScreens/Home.js:118-120 | With unique ids, deleting a listed offer shortens the own list by exactly one. |
| Home.DeleteKeepsOrder | front/StudX/src/screens/HomeScreens/Home.js:119 | The offers on either side of the deleted one keep their relative order. |
| Home.Apply | front/StudX/src/screens/HomeScreens/Home.js:43-121 | No event of the screen ever requests the owned feed with an empty email. |
| Home.LoadingNeverReturns | front/StudX/src/screens/HomeScreens/Home.js:35-95 | Once loading has ended, no sequence of events brings the spinner back. |
| Home.UserNameNeverEmpty | front/StudX/src/screens/HomeScreens/Home.js:38-64 | The welcome line's name stays non-empty through any sequence of events. |
| Home.PublicFeedOnlyFromItsReply | front/StudX/src/screens/HomeScreens/Home.js:78-121 | Without a public-feed reply, the public list, the error flag and the loading flag cannot change. Owned-feed failures and identity failures never cause the error view. A refresh or a delete can cause it only through the public fetch it starts. |
| Home.RefreshFailureShowsError | front/StudX/src/screens/HomeScreens/Home.js:88-94 | A refresh whose public fetch fails shows the no-connection view, even when the lists were showing. |
| Home.DeleteRefetchFailureShowsError | front/StudX/src/screens/HomeScreens/Home.js:88-121 | The re-fetch a confirmed delete starts shows the no-connection view when it fails. |
| Home.OwnFeedOnlyFromItsReplyOrDelete | front/StudX/src/screens/HomeScreens/Home.js:97-121 | Only an owned-feed reply or a confirmed delete changes the own list. |
| Home.LastPublicReplyWins | front/StudX/src/screens/HomeScreens/Home.js:78-95 | Requests are not cancelled, so the delivered public reply that settles last decides the list and clears the error. |
| Home.RefreshStopsOnPublicReplyAlone | front/StudX/src/screens/HomeScreens/Home.js:91-116 | After a refresh that also sent the owned GET, the public reply alone switches the refresh indicator off. |
| Home.StaleOwnReplyRestoresDeleted | front/StudX/src/screens/HomeScreens/Home.js:97-121 | Right after a delete, the id is gone. An owned reply already in flight that still lists the offer puts it back. |
| Home.Render | front/StudX/src/screens/HomeScreens/Home.js:156-235 | The spinner shows exactly while loading. The no-connection view shows exactly on error when not loading. The lists show otherwise. Each list, reversed back, is its state sequence, so every public offer is shown. The "create one" prompt appears exactly when the own list is empty. |
| Home.NewestShownFirst | front/StudX/src/screens/HomeScreens/Home.js:171 | The last offer of the public list is the first one shown. |
| Home.CardFor | front/StudX/src/screens/HomeScreens/Home.js:124-135 | Each own card receives its offer's id, student count and level. The offer's target language becomes `idiomaDeseado` and its native language becomes `idioma`. |
| Home.UntouchedSaveKeepsOffer | front/StudX/src/screens/HomeScreens/Home.js:124-135 | For an offer with a positive student count and a non-empty id, and with a stored token, saving the editor untouched sends a PUT for that offer. The PUT carries the offer's own native and target language, level and student count, so such a save cannot swap the languages. |
| Home.CardDeleteReachesScreen | front/StudX/src/screens/HomeScreens/Home.js:118-136 | When the server confirms a card's delete, the card reports its own offer's id. The screen then drops that offer and re-fetches the public feed once. |
| Home.EditSettled | front/StudX/src/screens/HomeScreens/Home.js:112-133 | When the card does not call `onRefresh`, the screen neither changes nor starts anything. When it does, only the refresh indicator turns on; exactly one public GET starts, then the owned GET exactly when an email is known. |
| Home.CardEditOnlyRefreshes | front/StudX/src/screens/HomeScreens/components/OwnExchangesTarget.js:185-192 | Whatever a card's edit outcome, the screen keeps both lists as they were. The public feed is fetched again exactly when a PUT was sent and answered ok. |
| Home.DeleteScenario | front/StudX/src/screens/HomeScreens/Home.js:52-121 | The user `a@b.com` loads their owned offer "1" and deletes it with an ok "deleted" reply. The own list ends empty and exactly one public re-fetch starts. |
| Home.ServerErrorScenario | front/StudX/src/screens/HomeScreens/Home.js:78-95 | A 500 on the public feed shows the no-connection view and leaves the own list unchanged. |
| OwnExchange.FlagFor | front/StudX/src/screens/HomeScreens/components/OwnExchangesTarget.js:113-114 | A language in the flags table gets its own entry. Any other language gets the Spanish flag. |
| OwnExchange.LevelColor | front/StudX/src/screens/HomeScreens/components/OwnExchangesTarget.js:304 | A level in the colour table gets its colour. Any other level, including a lower-case one, gets `#A5D6A7`. |
| OwnExchange.Lookup | front/StudX/src/screens/HomeScreens/components/OwnExchangesTarget.js:113-114 | The lookup finds nothing exactly when the key is not among the table's keys. Whatever it finds is stored under that key. |
| OwnExchange.Keys | front/StudX/src/screens/HomeScreens/components/OwnExchangesTarget.js:106 | The key list is as long as the table. A name is listed exactly when the table has an entry for it. |
| OwnExchange.KeysKeepOrder | front/StudX/src/screens/HomeScreens/components/OwnExchangesTarget.js:106 | The key list follows the table's declaration order: the keys of two runs of entries are the keys of each run in turn, and one entry gives exactly its own key. |
| OwnExchange.FilterLanguages | front/StudX/src/screens/HomeScreens/components/OwnExchangesTarget.js:106-111 | A key is listed if and only if its lower-case form contains the lower-cased search. |
| OwnExchange.EmptySearchListsAll | front/StudX/src/screens/HomeScreens/components/OwnExchangesTarget.js:106-108 | An empty search lists every key, in table order. |
| OwnExchange.SearchKeepsOrder | front/StudX/src/screens/HomeScreens/components/OwnExchangesTarget.js:106-108 | Matches keep the table's order: filtering a concatenation is concatenating the filters. A single key is listed once when it matches and not at all otherwise, so no key is repeated. |
| OwnExchange.SearchIgnoresCase | front/StudX/src/screens/HomeScreens/components/OwnExchangesTarget.js:106-111 | A search typed in any case finds the same languages as its lower-case form. |
| OwnExchange.StudentsChange | front/StudX/src/screens/HomeScreens/components/OwnExchangesTarget.js:210-213 | The cleaned field holds only digits and is no longer than the input. Every digit of the input appears in it. |
| OwnExchange.StudentsChangeKeepsDigits | front/StudX/src/screens/HomeScreens/components/OwnExchangesTarget.js:210-213 | A digit-only input is kept exactly. |
| OwnExchange.StudentsChangeIdempotent | front/StudX/src/screens/HomeScreens/components/OwnExchangesTarget.js:210-213 | Cleaning twice is the same as cleaning once. |
| OwnExchange.StudentsChangeKeepsOrder | front/StudX/src/screens/HomeScreens/components/OwnExchangesTarget.js:211 | Cleaning distributes over concatenation, and a single character survives exactly when it is a digit. So the digits keep their original order. |
| OwnExchange.InitialStudentsInput | front/StudX/src/screens/HomeScreens/components/OwnExchangesTarget.js:92-94 | The initial text is digit-only and has no leading zero. It is empty exactly when the count is not positive. Otherwise it reads back as the count, so it is the count's one canonical spelling (`Text.CanonicalRoundTrip`). |
| OwnExchange.ParseStudents | front/StudX/src/screens/HomeScreens/components/OwnExchangesTarget.js:159 | Parsing the digit-only field gives NaN exactly for the empty field, and otherwise its decimal value. |
| OwnExchange.StudentCountAccepted | front/StudX/src/screens/HomeScreens/components/OwnExchangesTarget.js:159-163 | The digit-only field passes the count guard exactly when one of its digits is not `0`. So an empty field and a field of zeros are refused. |
| OwnExchange.InitialCountIsAccepted | front/StudX/src/screens/HomeScreens/components/OwnExchangesTarget.js:92-163 | The field as the card mounted it passes the edit guard exactly when the card's count is positive, and then it parses back to that count. |
| OwnExchange.FormatDate | front/StudX/src/screens/HomeScreens/components/OwnExchangesTarget.js:116-122 | The result is empty exactly for a missing date. A valid date is written with `-` at positions 2 and 5, followed by the year spelled as `String(year)`: canonical digits with no leading zero. |
| OwnExchange.TwoDigitRoundTrip | front/StudX/src/screens/HomeScreens/components/OwnExchangesTarget.js:118-119 | A day or month number below 100 is padded to exactly two digits that read back as the number. |
| OwnExchange.DateRoundTrip | front/StudX/src/screens/HomeScreens/components/OwnExchangesTarget.js:116-122 | Every valid date formats to a `DD-MM-Y…` string that parses back to the same day, month and year. |
| OwnExchange.OpenForm | front/StudX/src/screens/HomeScreens/components/OwnExchangesTarget.js:88-97 | The form as the card mounts it holds the card's level, its `idioma` as the native language, and its `idiomaDeseado` as the target. Both dates are today. The students field is the initial text `alumnos > 0 ? String(alumnos) : ""`: digit-only, passing the count guard exactly for a positive count, which it reads back as. |
| OwnExchange.ApplyFormEvent | front/StudX/src/screens/HomeScreens/components/OwnExchangesTarget.js:201-233 | Each control changes only its own field. The students field stays digit-only and changes only by typing, to the cleaned text. A dismissed date picker (no date) leaves its date as it was. |
| OwnExchange.FormStaysValid | front/StudX/src/screens/HomeScreens/components/OwnExchangesTarget.js:201-213 | After any sequence of form edits, the students field is still digit-only. |
| OwnExchange.PlanDelete | front/StudX/src/screens/HomeScreens/components/OwnExchangesTarget.js:124-134 | No request is made exactly when the id or the token is missing or empty. Otherwise a DELETE is sent with that id and token, never a PUT. |
| OwnExchange.OnDeleteReply | front/StudX/src/screens/HomeScreens/components/OwnExchangesTarget.js:135-148 | The callback receives this card's id exactly on an ok reply when a callback was given. A non-ok reply raises an Error alert that ends with the server's text verbatim. A lost connection raises a connection-error alert. |
| OwnExchange.HandleDelete | front/StudX/src/screens/HomeScreens/components/OwnExchangesTarget.js:124-149 | A failed token read shows a connection error with the store's message and sends nothing. A refused delete shows the missing-information alert. Once a DELETE is sent, the outcome is that of its reply. The callback fires with the card's id exactly when a DELETE was sent, answered ok and a callback was given. |
| OwnExchange.PlanEdit | front/StudX/src/screens/HomeScreens/components/OwnExchangesTarget.js:151-183 | No PUT is sent exactly when the id or token is missing or the count is empty or zero; the missing-context reason takes precedence. A PUT carries the id, the token, the form's languages and level, and the positive parsed count. Its two dates are the form's dates in `DD-MM-YYYY` form, and both read back as the form's dates. |
| OwnExchange.OnEditReply | front/StudX/src/screens/HomeScreens/components/OwnExchangesTarget.js:185-198 | The editor closes and the screen refreshes exactly on an ok reply, and an ok reply shows a "Success" alert. A non-ok reply raises an Error alert that ends with the server's text verbatim. A lost connection raises a connection-error alert. |
| OwnExchange.HandleEdit | front/StudX/src/screens/HomeScreens/components/OwnExchangesTarget.js:151-199 | A failed token read shows a connection error with the store's message and sends nothing. A refused edit shows its reason's alert. Once a PUT is sent, the outcome is that of its reply. The editor closes and the screen refreshes exactly when a PUT was sent and answered ok. |
| Text.DecimalRoundTrip | front/StudX/src/screens/HomeScreens/components/OwnExchangesTarget.js:92-94 | Printing a non-negative count and parsing it back gives the count. |
| Text.NatToDecimal | front/StudX/src/screens/HomeScreens/components/OwnExchangesTarget.js:93 | `String(n)` of a non-negative count is a non-empty digit string with no leading zero. It is a single digit exactly for counts below 10. |
| Text.PositiveIffNonZeroDigit | front/StudX/src/screens/HomeScreens/components/OwnExchangesTarget.js:159-160 | A digit string is worth more than zero exactly when one of its digits is not `0`. |
| Text.CanonicalRoundTrip | front/StudX/src/screens/HomeScreens/components/OwnExchangesTarget.js:159 | Parsing a digit string without leading zeros and printing it back gives the same string. |
| Text.IntegerRoundTrip | front/StudX/src/screens/HomeScreens/components/OwnExchangesTarget.js:120-121 | A year, including a negative one, prints and parses back unchanged. |
| Text.IntToDecimal | front/StudX/src/screens/HomeScreens/components/OwnExchangesTarget.js:120-121 | `String(y)` is non-empty and starts with a minus sign exactly for a negative number. It is otherwise written in canonical form: digits only, with no leading zero, and no "-0". |
| Text.PadStart2 | front/StudX/src/screens/HomeScreens/components/OwnExchangesTarget.js:118-119 | The result is at least two characters long and ends with the input. Everything in front of the input is '0'. |
| Text.Lower | front/StudX/src/screens/HomeScreens/components/OwnExchangesTarget.js:107 | Lower-casing keeps the length and leaves no capital `A`-`Z`. A capital moves down by 32, the Kelvin sign becomes `k`, and every other character stays as it was. |
| Text.LowerChar | front/StudX/src/screens/HomeScreens/components/OwnExchangesTarget.js:107 | One character's lower case is never a capital. A capital moves down by 32 and the Kelvin sign becomes `k`; everything else stays. A lower-case ASCII letter can only come from itself, its capital or the Kelvin sign. |
| Text.LowerIdempotent | front/StudX/src/screens/HomeScreens/components/OwnExchangesTarget.js:107 | Lower-casing an already lower-cased string changes nothing. |
| Seqs.Filter | front/StudX/src/screens/HomeScreens/Home.js:119 | Every survivor satisfies the predicate and comes from the input. Every input element that satisfies the predicate survives. |
| Seqs.FilterConcat | front/StudX/src/screens/HomeScreens/Home.js:119 | Filtering distributes over concatenation, so survivors keep their relative order. |
| Seqs.Reverse | front/StudX/src/screens/HomeScreens/Home.js:171 | The display list has the same length, with position i holding the element at position length-1-i. |
| Seqs.ReverseSameElements | front/StudX/src/screens/HomeScreens/Home.js:171 | The display list holds exactly the state list's elements. |
| Seqs.ReverseInvolution | front/StudX/src/screens/HomeScreens/Home.js:222 | Reversing twice gives back the original list, so the display loses nothing. |

## Hazards the code has

- **Refresh indicator.** The refresh indicator is switched off when the public
  reply settles (`Home.js:91-94`). It does not wait for both fetches of a
  refresh to settle. `Home.RefreshStopsOnPublicReplyAlone` states this
  behaviour.
- **Stale owned replies.** A confirmed delete is not protected against an
  owned-feed reply that was already in flight. `Home.StaleOwnReplyRestoresDeleted`
  shows that such a reply restores the deleted offer.
- **Failed re-fetches.** A refresh or a confirmed delete starts the public
  fetch, and when that fetch fails the error flag is raised
  (`Home.js:88-90`), which replaces both lists with the no-connection view.
  Such failures are not swallowed. `Home.RefreshFailureShowsError` and
  `Home.DeleteRefetchFailureShowsError` state this.
- **Overlapping refreshes.** Overlapping requests are not cancelled. The last
  reply to settle wins (`Home.LastPublicReplyWins`).

## Left out

- The calls to `fetch`, `SecureStore`, `Alert` and `console.log` are I/O.
  Their results are inputs, and alerts and callbacks are returned as values.
  On the home screen, missing credentials return early (`Home.js:56-58`) and
  a failure while reading the secure store is caught and only logged
  (`Home.js:73-75`). Neither changes the state, so both are modelled as
  `CredentialsLoaded(None, None)`. On a card, a failed token read is the
  input `StoreFailed` and shows the connection-error alert.
- Timing is left out. Replies are events in an arbitrary order. An event
  sequence may also contain replies to requests that were never issued. The
  proved properties therefore cover at least every real interleaving.
- The following are presentation and are not modelled: `Animated` (beyond the
  `FadeInWelcome` effect), the modals and their visibility, clearing the
  search box after a pick, `FlatList` options, styles, `scaleFont`, and
  `Dimensions`/`PixelRatio`.
- The public `ExchangeTarget` card and the navigation to the chat screen are
  not part of this model. `HomeScreen.js`, `Group.java` and `Preferences.java`
  are not part of this model either: they hold tab wiring and plain records.
- OwnExchange.InitialStudentsInput: the student count is modelled as an
  integer. A fractional count would print with a '.', which the field never
  holds in the model.
- OwnExchange.ParseStudents: `parseInt` is modelled only on digit strings,
  which are the only strings the field can hold (`OwnExchange.FormStaysValid`).
  The model's integers are unbounded. JavaScript's loss of precision above
  2^53, and `Infinity` for very long inputs, are not modelled.
- OwnExchange.FlagFor: properties inherited from `Object.prototype`, such as
  `flags["constructor"]`, are treated as unknown languages. In JavaScript they
  are truthy and bypass the fallback.
- OwnExchange.LevelColor: inherited `Object.prototype` properties are treated
  the same way as for `FlagFor`.
- Text.Lower: only characters whose lower case is an ASCII letter are mapped:
  `A`-`Z` and the Kelvin sign. This agrees with `toLowerCase` wherever the
  result is compared against the ASCII-only flag names. It is not a general
  Unicode lower-casing.
- OwnExchange.FormatDate: a `Date` is its integer day, month (from 0) and
  year. An invalid `Date`, which JavaScript prints as "NaN", is not modelled.
- The JSON body of the edit call is a record, not a serialised string.
- Strings are sequences of Dafny characters, which are Unicode scalar values.
  JavaScript counts UTF-16 code units, so a character above U+FFFF has length
  1 here and 2 there. No modelled operation depends on this: the students
  field's cleaning drops both halves of such a character, and the search and
  lookups compare whole strings.
- OwnExchange.OpenForm: the form's state is fixed when the card mounts
  (`useState` initialisers). The screen keeps a card by `item.id`
  (`Home.js:223`), so a count or language changed by a later refresh never
  reaches an open form, and an untouched save sends the values from mount
  time. Props changing after mount are not modelled.

=== FILE: home.dfy ===
/**
 The home screen: the public feed ("Exchanges Available") and the signed-in
 user's own feed ("My Exchanges"), kept in one state record that changes only
 through the screen's handlers. Each handler is a function from the state to
 the next state plus the requests it starts; every request settles later as a
 separate event carrying the server's reply, in whatever order replies arrive.
 */
module Home {
  import opened Optional
  import opened Text
  import opened Seqs
  import opened Http
  import opened Offers
  import OwnExchange

  /** The screen's `useState` hooks. */
  datatype HomeState = HomeState(
    exchanges: seq<Exchange>,
    myExchanges: seq<Exchange>,
    loading: bool,
    refreshing: bool,
    error: bool,
    userName: string,
    userEmail: string)

  const DefaultUserName := "Usuario"

  /** The state on first render. */
  const Initial := HomeState([], [], true, false, false, DefaultUserName, "")

  /** Work a handler starts: reading the stored credentials, one of the three
      GET requests, or the welcome fade-in. */
  datatype Effect =
    | ReadCredentials
    | GetIdentity(token: string)
    | GetExchanges
    | GetMyExchanges(email: string)
    | FadeInWelcome

  datatype Step = Step(state: HomeState, effects: seq<Effect>)

  /** The identity endpoint's JSON: its `name` field, when it has one. */
  datatype Identity = Identity(name: Option<string>)

  /** A feed reply's body is the parsed JSON array, or `None` when the body
      does not parse (which lands in the same `catch` as a lost connection). */
  type FeedReply = Reply<Option<seq<Exchange>>>

  type IdentityReply = Reply<Option<Identity>>

  predicate Delivered<T>(reply: Reply<Option<T>>) {
    reply.Ok() && reply.body.Some?
  }

  /** Everything but the public feed and its flags is left alone. */
  predicate SameExceptPublicFeed(s: HomeState, t: HomeState) {
    t.myExchanges == s.myExchanges && t.userName == s.userName && t.userEmail == s.userEmail
  }

  /** Everything but the own feed is left alone. */
  predicate SameExceptOwnFeed(s: HomeState, t: HomeState) {
    && t.exchanges == s.exchanges && t.loading == s.loading && t.refreshing == s.refreshing
    && t.error == s.error && t.userName == s.userName && t.userEmail == s.userEmail
  }

  /* ---------------------------------------------------------------------- */
  /* Handlers                                                                */
  /* ---------------------------------------------------------------------- */

  /** Mounting: `fetchUserData` starts by reading the credentials and
      `fetchExchanges` starts the public GET; the `[userEmail]` effect also
      runs once, with the empty email, and so requests nothing. */
  function Mount(): (st: Step)
    ensures st.state.loading && !st.state.refreshing && !st.state.error
    ensures st.state.exchanges == [] && st.state.myExchanges == []
    ensures st.state.userName == DefaultUserName && st.state.userEmail == ""
    ensures st.effects == [ReadCredentials, GetExchanges]
  {
    Step(Initial, [ReadCredentials, GetExchanges] + FetchMyExchanges(Initial).effects)
  }

  /** `fetchMyExchanges`: with no email it returns at once; otherwise it asks
      for the exchanges of that email. Starting it changes no state. */
  function FetchMyExchanges(s: HomeState): (st: Step)
    ensures st.state == s
    ensures |st.effects| <= 1
    ensures st.effects == [] <==> s.userEmail == ""
    ensures forall i :: 0 <= i < |st.effects| ==> st.effects[i] == GetMyExchanges(s.userEmail)
  {
    if s.userEmail == "" then Step(s, []) else Step(s, [GetMyExchanges(s.userEmail)])
  }

  /** `fetchUserData` once the stored token and email are read. With either
      missing nothing happens. Otherwise the email is stored at once, before
      and whatever the identity reply, the identity GET starts, and the
      `[userEmail]` effect fetches the own feed when the email changed. */
  function CredentialsRead(s: HomeState, token: Option<string>, email: Option<string>): (st: Step)
    ensures !Present(token) || !Present(email) ==> st == Step(s, [])
    ensures Present(token) && Present(email) ==>
              && st.state == s.(userEmail := email.value)
              && st.effects == [GetIdentity(token.value)]
                              + (if email.value != s.userEmail then [GetMyExchanges(email.value)] else [])
    ensures forall i :: 0 <= i < |st.effects| && st.effects[i].GetMyExchanges? ==>
              st.effects[i].email != "" && st.effects[i].email == st.state.userEmail
  {
    if !Present(token) || !Present(email) then Step(s, [])
    else
      var t := s.(userEmail := email.value);
      var owned := if email.value != s.userEmail then FetchMyExchanges(t).effects else [];
      Step(t, [GetIdentity(token.value)] + owned)
  }

  /** The identity reply: on an ok reply the name becomes `data.name`, or
      `"Usuario"` when that is missing or empty, and the welcome fades in;
      anything else changes nothing. */
  function IdentitySettled(s: HomeState, reply: IdentityReply): (st: Step)
    ensures !Delivered(reply) ==> st == Step(s, [])
    ensures Delivered(reply) ==>
              && st.effects == [FadeInWelcome]
              && st.state == s.(userName := st.state.userName)
              && st.state.userName != ""
              && (Present(reply.body.value.name) ==> st.state.userName == reply.body.value.name.value)
              && (!Present(reply.body.value.name) ==> st.state.userName == DefaultUserName)
  {
    if !Delivered(reply) then Step(s, [])
    else
      var name := reply.body.value.name;
      Step(s.(userName := if Present(name) then name.value else DefaultUserName), [FadeInWelcome])
  }

  /** `fetchExchanges` settling: a delivered feed replaces the public list
      wholesale and clears the error; any failure raises the error and keeps
      the old list. Either way the spinner and the refresh indicator stop. */
  function ExchangesSettled(s: HomeState, reply: FeedReply): (st: Step)
    ensures st.effects == []
    ensures !st.state.loading && !st.state.refreshing
    ensures SameExceptPublicFeed(s, st.state)
    ensures st.state.error <==> !Delivered(reply)
    ensures Delivered(reply) ==> st.state.exchanges == reply.body.value
    ensures !Delivered(reply) ==> st.state.exchanges == s.exchanges
  {
    var t := s.(loading := false, refreshing := false);
    if Delivered(reply) then Step(t.(exchanges := reply.body.value, error := false), [])
    else Step(t.(error := true), [])
  }

  /** `fetchMyExchanges` settling: a delivered feed replaces the own list;
      a failure is only logged. Nothing else changes in either case. */
  function MyExchangesSettled(s: HomeState, reply: FeedReply): (st: Step)
    ensures st.effects == []
    ensures SameExceptOwnFeed(s, st.state)
    ensures Delivered(reply) ==> st.state.myExchanges == reply.body.value
    ensures !Delivered(reply) ==> st.state == s
  {
    if Delivered(reply) then Step(s.(myExchanges := reply.body.value), []) else Step(s, [])
  }

  /** `onRefresh`: the indicator turns on, then both fetches start. */
  function Refresh(s: HomeState): (st: Step)
    ensures st.state == s.(refreshing := true)
    ensures st.effects == [GetExchanges] + (if s.userEmail != "" then [GetMyExchanges(s.userEmail)] else [])
    ensures forall i :: 0 <= i < |st.effects| && st.effects[i].GetMyExchanges? ==>
              st.effects[i].email != "" && st.effects[i].email == s.userEmail
  {
    var t := s.(refreshing := true);
    Step(t, [GetExchanges] + FetchMyExchanges(t).effects)
  }

  function KeepOther(id: string): Exchange -> bool {
    (ex: Exchange) => ex.id != id
  }

  /** `prev.filter((ex) => ex.id !== deletedId)`. */
  function RemoveById(xs: seq<Exchange>, id: string): (r: seq<Exchange>)
    ensures forall i :: 0 <= i < |r| ==> r[i].id != id && r[i] in xs
    ensures forall i :: 0 <= i < |xs| && xs[i].id != id ==> xs[i] in r
  {
    Filter(KeepOther(id), xs)
  }

  /** `handleDeleteSuccess`: the deleted exchange leaves the own list and
      exactly one public re-fetch starts; nothing else changes. */
  function DeleteSucceeded(s: HomeState, id: string): (st: Step)
    ensures st.effects == [GetExchanges]
    ensures SameExceptOwnFeed(s, st.state)
    ensures forall i :: 0 <= i < |st.state.myExchanges| ==> st.state.myExchanges[i].id != id
    ensures forall i :: 0 <= i < |s.myExchanges| && s.myExchanges[i].id != id ==>
              s.myExchanges[i] in st.state.myExchanges
    ensures forall i :: 0 <= i < |st.state.myExchanges| ==> st.state.myExchanges[i] in s.myExchanges
    ensures st.state.myExchanges == RemoveById(s.myExchanges, id)
  {
    Step(s.(myExchanges := RemoveById(s.myExchanges, id)), [GetExchanges])
  }

  /* ---------------------------------------------------------------------- */
  /* Events and runs                                                         */
  /* ---------------------------------------------------------------------- */

  /** Everything that can happen to a mounted screen. */
  datatype Event =
    | CredentialsLoaded(token: Option<string>, email: Option<string>)
    | IdentityReplied(identity: IdentityReply)
    | ExchangesReplied(feed: FeedReply)
    | MyExchangesReplied(feed: FeedReply)
    | PullToRefresh
    | DeleteConfirmed(id: string)

  function Apply(s: HomeState, e: Event): (st: Step)
    ensures forall i :: 0 <= i < |st.effects| && st.effects[i].GetMyExchanges? ==>
              st.effects[i].email != ""
  {
    match e
    case CredentialsLoaded(token, email) => CredentialsRead(s, token, email)
    case IdentityReplied(reply) => IdentitySettled(s, reply)
    case ExchangesReplied(reply) => ExchangesSettled(s, reply)
    case MyExchangesReplied(reply) => MyExchangesSettled(s, reply)
    case PullToRefresh => Refresh(s)
    case DeleteConfirmed(id) => DeleteSucceeded(s, id)
  }

  /** The state after a run of events. */
  function Run(s: HomeState, es: seq<Event>): HomeState
    decreases |es|
  {
    if es == [] then s else Run(Apply(s, es[0]).state, es[1..])
  }

  lemma {:induction false} RunConcat(s: HomeState, a: seq<Event>, b: seq<Event>)
    ensures Run(s, a + b) == Run(Run(s, a), b)
    decreases |a|
  {
    if a == [] {
      assert a + b == b;
    } else {
      assert (a + b)[0] == a[0];
      assert (a + b)[1..] == a[1..] + b;
      assert Run(s, a + b) == Run(Apply(s, a[0]).state, a[1..] + b);
      RunConcat(Apply(s, a[0]).state, a[1..], b);
    }
  }

  /** Running two events is applying one after the other. */
  lemma RunTwo(s: HomeState, e1: Event, e2: Event)
    ensures Run(s, [e1]) == Apply(s, e1).state
    ensures Run(s, [e1, e2]) == Apply(Apply(s, e1).state, e2).state
  {
    assert [e1][1..] == [];
    var t := Apply(s, e1).state;
    assert [e2][1..] == [];
    assert Run(t, [e2]) == Apply(t, e2).state;
    assert [e1, e2][1..] == [e2];
    assert Run(s, [e1, e2]) == Run(t, [e2]);
  }

  /** Once the first public fetch has settled the spinner never comes back:
      nothing but mounting sets `loading`. */
  lemma {:induction false} LoadingNeverReturns(s: HomeState, es: seq<Event>)
    requires !s.loading
    ensures !Run(s, es).loading
    decreases |es|
  {
    if es != [] {
      LoadingNeverReturns(Apply(s, es[0]).state, es[1..]);
    }
  }

  /** The welcome line always has a name to show. */
  lemma {:induction false} UserNameNeverEmpty(s: HomeState, es: seq<Event>)
    requires s.userName != ""
    ensures Run(s, es).userName != ""
    decreases |es|
  {
    if es != [] {
      UserNameNeverEmpty(Apply(s, es[0]).state, es[1..]);
    }
  }

  /** Only the public feed's own reply touches the public list and the error
      flag: own-feed failures and identity failures never show the error view.
      Refreshes and deletes can, but only through the public fetch they start
      (`RefreshFailureShowsError`). */
  lemma {:induction false} PublicFeedOnlyFromItsReply(s: HomeState, es: seq<Event>)
    requires forall i :: 0 <= i < |es| ==> !es[i].ExchangesReplied?
    ensures Run(s, es).exchanges == s.exchanges
    ensures Run(s, es).error == s.error
    ensures Run(s, es).loading == s.loading
    decreases |es|
  {
    if es != [] {
      PublicFeedOnlyFromItsReply(Apply(s, es[0]).state, es[1..]);
    }
  }

  /** Only an own-feed reply or a confirmed delete changes the own list. */
  lemma {:induction false} OwnFeedOnlyFromItsReplyOrDelete(s: HomeState, es: seq<Event>)
    requires forall i :: 0 <= i < |es| ==> !es[i].MyExchangesReplied? && !es[i].DeleteConfirmed?
    ensures Run(s, es).myExchanges == s.myExchanges
    decreases |es|
  {
    if es != [] {
      OwnFeedOnlyFromItsReplyOrDelete(Apply(s, es[0]).state, es[1..]);
    }
  }

  /** Overlapping fetches are not cancelled: whichever delivered public reply
      settles last decides the list, whatever order the requests were made in. */
  lemma LastPublicReplyWins(s: HomeState, before: seq<Event>, reply: FeedReply, after: seq<Event>)
    requires Delivered(reply)
    requires forall i :: 0 <= i < |after| ==> !after[i].ExchangesReplied?
    ensures Run(s, before + [ExchangesReplied(reply)] + after).exchanges == reply.body.value
    ensures !Run(s, before + [ExchangesReplied(reply)] + after).error
  {
    RunConcat(s, before + [ExchangesReplied(reply)], after);
    RunConcat(s, before, [ExchangesReplied(reply)]);
    var mid := Run(s, before + [ExchangesReplied(reply)]);
    assert mid == ExchangesSettled(Run(s, before), reply).state;
    PublicFeedOnlyFromItsReply(mid, after);
  }

  /** The refresh indicator stops as soon as the public reply settles, even
      while the own-feed request that the same refresh started is still out. */
  lemma RefreshStopsOnPublicReplyAlone(s: HomeState, reply: FeedReply)
    requires s.userEmail != ""
    ensures GetMyExchanges(s.userEmail) in Refresh(s).effects
    ensures !Run(s, [PullToRefresh, ExchangesReplied(reply)]).refreshing
  {
    RunTwo(s, PullToRefresh, ExchangesReplied(reply));
  }

  /** A delete is not protected against an own-feed reply that was already on
      its way: if that stale reply still lists the deleted exchange, the
      exchange is back in the list. */
  lemma StaleOwnReplyRestoresDeleted(s: HomeState, id: string, stale: seq<Exchange>)
    requires exists i :: 0 <= i < |stale| && stale[i].id == id
    ensures forall i :: 0 <= i < |Run(s, [DeleteConfirmed(id)]).myExchanges| ==> Run(s, [DeleteConfirmed(id)]).myExchanges[i].id != id
    ensures Run(s, [DeleteConfirmed(id), MyExchangesReplied(Reply(200, Some(stale)))]).myExchanges == stale
  {
    RunTwo(s, DeleteConfirmed(id), MyExchangesReplied(Reply(200, Some(stale))));
  }

  /** A refresh whose public fetch fails shows the no-connection view, even
      when the screen was showing the lists. */
  lemma RefreshFailureShowsError(s: HomeState, reply: FeedReply)
    requires !Delivered(reply)
    ensures Render(Run(s, [PullToRefresh, ExchangesReplied(reply)])).body == NoConnection
  {
    RunTwo(s, PullToRefresh, ExchangesReplied(reply));
  }

  /** The same holds for the public re-fetch that a confirmed delete starts. */
  lemma DeleteRefetchFailureShowsError(s: HomeState, id: string, reply: FeedReply)
    requires !Delivered(reply)
    ensures GetExchanges in DeleteSucceeded(s, id).effects
    ensures Render(Run(s, [DeleteConfirmed(id), ExchangesReplied(reply)])).body == NoConnection
  {
    RunTwo(s, DeleteConfirmed(id), ExchangesReplied(reply));
  }

  /* ---------------------------------------------------------------------- */
  /* Delete bookkeeping                                                      */
  /* ---------------------------------------------------------------------- */

  /** How many exchanges in `xs` carry `id`. */
  function Occurrences(xs: seq<Exchange>, id: string): nat {
    if xs == [] then 0 else (if xs[0].id == id then 1 else 0) + Occurrences(xs[1..], id)
  }

  predicate UniqueIds(xs: seq<Exchange>) {
    forall i, j :: 0 <= i < j < |xs| ==> xs[i].id != xs[j].id
  }

  /** Removal drops exactly the exchanges carrying the id. */
  lemma {:induction false} RemoveByIdCount(xs: seq<Exchange>, id: string)
    ensures |RemoveById(xs, id)| + Occurrences(xs, id) == |xs|
  {
    if xs != [] {
      RemoveByIdCount(xs[1..], id);
    }
  }

  lemma {:induction false} UniqueIdOccursOnce(xs: seq<Exchange>, i: nat)
    requires UniqueIds(xs) && i < |xs|
    ensures Occurrences(xs, xs[i].id) == 1
  {
    if i == 0 {
      NoOccurrences(xs[1..], xs[0].id);
    } else {
      UniqueIdOccursOnce(xs[1..], i - 1);
    }
  }

  lemma {:induction false} NoOccurrences(xs: seq<Exchange>, id: string)
    requires forall k :: 0 <= k < |xs| ==> xs[k].id != id
    ensures Occurrences(xs, id) == 0
  {
    if xs != [] {
      NoOccurrences(xs[1..], id);
    }
  }

  /** With unique ids, a confirmed delete of a listed exchange shortens the
      own list by exactly one. */
  lemma DeleteRemovesExactlyOne(s: HomeState, i: nat)
    requires UniqueIds(s.myExchanges) && i < |s.myExchanges|
    ensures |DeleteSucceeded(s, s.myExchanges[i].id).state.myExchanges| == |s.myExchanges| - 1
  {
    var id := s.myExchanges[i].id;
    UniqueIdOccursOnce(s.myExchanges, i);
    RemoveByIdCount(s.myExchanges, id);
  }

  /** The survivors of a delete keep their order: deleting from a list split
      around the removed exchange is deleting from each side. */
  lemma DeleteKeepsOrder(before: seq<Exchange>, x: Exchange, after: seq<Exchange>)
    ensures RemoveById(before + [x] + after, x.id) == RemoveById(before, x.id) + RemoveById(after, x.id)
  {
    var p := KeepOther(x.id);
    FilterConcat(p, before + [x], after);
    FilterConcat(p, before, [x]);
    FilterSingleton(p, x);
    assert Filter(p, [x]) == [];
    assert Filter(p, before + [x]) == Filter(p, before);
  }

  /* ---------------------------------------------------------------------- */
  /* Rendering                                                               */
  /* ---------------------------------------------------------------------- */

  datatype OwnList = CreateOnePrompt | OwnCards(cards: seq<Exchange>)

  datatype Body =
    | Spinner
    | NoConnection
    | Lists(available: seq<Exchange>, own: OwnList)

  datatype Screen = Screen(welcomeName: string, refreshing: bool, body: Body)

  /** What the screen shows: the spinner while loading, else the
      no-connection message on error, else both lists newest first. */
  function Render(s: HomeState): (v: Screen)
    ensures v.welcomeName == s.userName && v.refreshing == s.refreshing
    ensures v.body.Spinner? <==> s.loading
    ensures v.body.NoConnection? <==> !s.loading && s.error
    ensures v.body.Lists? <==> !s.loading && !s.error
    ensures v.body.Lists? ==> Reverse(v.body.available) == s.exchanges
    ensures v.body.Lists? ==> (v.body.own.CreateOnePrompt? <==> s.myExchanges == [])
    ensures v.body.Lists? && v.body.own.OwnCards? ==> Reverse(v.body.own.cards) == s.myExchanges
    ensures v.body.Lists? ==> forall i :: 0 <= i < |s.exchanges| ==> s.exchanges[i] in v.body.available
  {
    ReverseInvolution(s.exchanges);
    ReverseInvolution(s.myExchanges);
    ReverseSameElements(s.exchanges);
    var body :=
      if s.loading then Spinner
      else if s.error then NoConnection
      else Lists(Reverse(s.exchanges),
                 if |s.myExchanges| == 0 then CreateOnePrompt else OwnCards(Reverse(s.myExchanges)));
    Screen(s.userName, s.refreshing, body)
  }

  /** The newest exchange (last in the state list) is shown first. */
  lemma NewestShownFirst(s: HomeState)
    requires !s.loading && !s.error && |s.exchanges| > 0
    ensures Render(s).body.available[0] == s.exchanges[|s.exchanges| - 1]
  {
  }

  /* ---------------------------------------------------------------------- */
  /* The own-exchange cards wired to the screen                              */
  /* ---------------------------------------------------------------------- */

  /** `renderMyExchangeItem`: the props one own exchange's card receives. */
  function CardFor(item: Exchange): (card: OwnExchange.Card)
    ensures card.exchangeId == Some(item.id)
    ensures card.alumnos == item.quantityStudents
    ensures card.nivel == item.academicLevel
    ensures card.idiomaDeseado == item.targetLanguage && card.idioma == item.nativeLanguage
  {
    OwnExchange.Card(item.quantityStudents, item.academicLevel, item.targetLanguage,
                     item.nativeLanguage, Some(item.id))
  }

  /** Deleting from a card: when the server confirms, the card reports its own
      exchange's id, and the screen drops exactly that exchange from the own
      list and re-fetches the public feed once. */
  lemma CardDeleteReachesScreen(s: HomeState, i: nat, token: string, reply: Reply<string>)
    requires i < |s.myExchanges| && s.myExchanges[i].id != "" && token != ""
    requires reply.Ok()
    ensures var run := OwnExchange.HandleDelete(CardFor(s.myExchanges[i]).exchangeId,
                                                OwnExchange.Stored(Some(token)), true, reply);
            && run.outcome.notified == Some(s.myExchanges[i].id)
            && var st := DeleteSucceeded(s, run.outcome.notified.value);
            && st.effects == [GetExchanges]
            && (forall k :: 0 <= k < |st.state.myExchanges| ==> st.state.myExchanges[k].id != s.myExchanges[i].id)
  {
  }

  /** Saving a card's editor without touching it sends the offer's own
      level, languages and student count back unchanged. */
  lemma UntouchedSaveKeepsOffer(item: Exchange, token: string, today: OwnExchange.Date)
    requires item.id != "" && token != "" && item.quantityStudents > 0
    ensures var c := OwnExchange.PlanEdit(Some(item.id), Some(token), OwnExchange.OpenForm(CardFor(item), today));
            && c.SendPut? && c.id == item.id
            && c.body.nativeLanguage == item.nativeLanguage
            && c.body.targetLanguage == item.targetLanguage
            && c.body.academicLevel == item.academicLevel
            && c.body.quantityStudents == item.quantityStudents
  {
  }

  /** The screen's side of a card's settled edit: the card calls `onRefresh`
      when its outcome says so, and otherwise the screen is not involved. */
  function EditSettled(s: HomeState, o: OwnExchange.EditOutcome): (st: Step)
    ensures st.state.exchanges == s.exchanges && st.state.myExchanges == s.myExchanges
    ensures st.state.refreshing <==> s.refreshing || o.refresh
    ensures GetExchanges in st.effects <==> o.refresh
    ensures !o.refresh ==> st == Step(s, [])
    ensures o.refresh ==> st.state == s.(refreshing := true)
    ensures o.refresh ==> st.effects == [GetExchanges] + FetchMyExchanges(s).effects
  {
    if o.refresh then Refresh(s) else Step(s, [])
  }

  /** Editing from a card never patches the lists: whatever the edit's
      outcome, both lists stay as they were, and the public feed is fetched
      again exactly when a PUT was sent and answered ok. The lists change only
      when those fetches settle. */
  lemma CardEditOnlyRefreshes(s: HomeState, item: Exchange, stored: OwnExchange.StoredToken,
                              form: OwnExchange.EditForm, reply: Reply<string>)
    requires OwnExchange.ValidForm(form)
    ensures var run := OwnExchange.HandleEdit(CardFor(item).exchangeId, stored, form, reply);
            var st := EditSettled(s, run.outcome);
            && st.state.exchanges == s.exchanges && st.state.myExchanges == s.myExchanges
            && (GetExchanges in st.effects <==> run.request.SendPut? && reply.Ok())
  {
  }

  /** The confirmed-delete scenario: the signed-in `a@b.com` owns exchange
      `"1"`; once the server answers the delete with `"deleted"`, the own list
      is empty and the public feed is fetched again. */
  lemma DeleteScenario(offer: Exchange, token: string)
    requires offer.id == "1" && token != ""
    ensures var s1 := Run(Initial, [CredentialsLoaded(Some(token), Some("a@b.com")),
                                    MyExchangesReplied(Reply(200, Some([offer])))]);
            && s1.userEmail == "a@b.com" && s1.myExchanges == [offer]
            && var run := OwnExchange.HandleDelete(CardFor(offer).exchangeId, OwnExchange.Stored(Some(token)),
                                                   true, Reply(200, "deleted"));
            && run.request == OwnExchange.SendDelete("1", token)
            && run.outcome.notified == Some("1")
            && DeleteSucceeded(s1, "1").state.myExchanges == []
            && DeleteSucceeded(s1, "1").effects == [GetExchanges]
  {
    RunTwo(Initial, CredentialsLoaded(Some(token), Some("a@b.com")), MyExchangesReplied(Reply(200, Some([offer]))));
    assert RemoveById([offer], "1") == [] by {
      FilterSingleton(KeepOther("1"), offer);
    }
  }

  /** The server-error scenario: a 500 on the public feed shows the
      no-connection view and leaves the own list as it was. */
  lemma ServerErrorScenario(s: HomeState, body: Option<seq<Exchange>>)
    ensures var t := ExchangesSettled(s, Reply(500, body)).state;
            t.error && t.myExchanges == s.myExchanges && Render(t).body == NoConnection
  {
  }
}

=== FILE: http.dfy ===
/**
 What an awaited `fetch` call settles to, as seen by the screen: either the
 server answered with a status and a body, or the promise rejected (no
 connection, or the body could not be read) with an error message.
 */
module Http {

  datatype Reply<T> = Reply(status: int, body: T) | Unreachable(message: string) {

    /** `response.ok`: the server answered with a 2xx status. */
    predicate Ok() {
      Reply? && 200 <= status <= 299
    }
  }
}

=== FILE: offers.dfy ===
/** The exchange offer record as the server returns it. */
module Offers {

  datatype Exchange = Exchange(
    id: string,
    university: string,
    idTeacherCreator: string,
    quantityStudents: int,
    academicLevel: string,
    nativeLanguage: string,
    targetLanguage: string)
}

=== FILE: optional.dfy ===
/** The optional value used wherever JavaScript has `null`/`undefined`. */
module Optional {

  datatype Option<+T> = None | Some(value: T)
}

=== FILE: own_exchange.dfy ===
/**
 The card for one of the signed-in user's own exchanges: its flag and level
 lookups, the edit form's input handling, and the guards and reply handling of
 its delete and edit requests. Requests and alerts are returned as values;
 the stored token, the server's reply and the date picker's choice are inputs.
 */
module OwnExchange {
  import opened Optional
  import opened Text
  import opened Seqs
  import opened Http

  /* ---------------------------------------------------------------------- */
  /* Flags and level colours                                                 */
  /* ---------------------------------------------------------------------- */

  /** The `flags` table: language name and the country code of its flag image,
      in declaration order (the order `Object.keys` reports). */
  const FlagTable: seq<(string, string)> := [
    ("Spanish", "ES"), ("English", "GB"), ("French", "FR"), ("German", "DE"),
    ("Italian", "IT"), ("Portuguese", "PT"), ("Dutch", "NL"), ("Russian", "RU"),
    ("Chinese", "CN"), ("Japanese", "JP"), ("Korean", "KR"), ("Arabic", "SA"),
    ("Turkish", "TR"), ("Bulgarian", "BG"), ("Czech", "CZ"), ("Danish", "DK"),
    ("Finnish", "FI"), ("Greek", "GR"), ("Hungarian", "HU"), ("Indonesian", "ID"),
    ("Hebrew", "IL"), ("Hindi", "IN"), ("Persian", "IR"), ("Malay", "MY"),
    ("Norwegian", "NO"), ("Filipino", "PH"), ("Polish", "PL"), ("Romanian", "RO"),
    ("Swedish", "SE"), ("Thai", "TH"), ("Ukrainian", "UA"), ("Vietnamese", "VN")
  ]

  /** The `levelColors` table. */
  const LevelColorTable: seq<(string, string)> := [
    ("A1", "#A5D6A7"), ("A2", "#4CAF50"), ("B1", "#FFB74D"),
    ("B2", "#FF9800"), ("C1", "#E57373"), ("C2", "#D32F2F")
  ]

  const SpanishFlag := "ES"
  const FallbackLevelColor := "#A5D6A7"

  /** The first components of a table, in order: a name is listed exactly
      when the table has an entry for it. */
  function Keys(table: seq<(string, string)>): (ks: seq<string>)
    ensures |ks| == |table|
    ensures forall key, value :: (key, value) in table ==> key in ks
    ensures forall key :: key in ks ==> exists value :: (key, value) in table
  {
    var ks := seq(|table|, i requires 0 <= i < |table| => table[i].0);
    assert forall key, value :: (key, value) in table ==> key in ks by {
      forall key, value | (key, value) in table
        ensures key in ks
      {
        var i :| 0 <= i < |table| && table[i] == (key, value);
        assert ks[i] == key;
      }
    }
    ks
  }

  /** Object property lookup: the value stored under `key`, if any. */
  function Lookup(table: seq<(string, string)>, key: string): (v: Option<string>)
    ensures v.None? <==> key !in Keys(table)
    ensures v.Some? ==> (key, v.value) in table
  {
    if table == [] then None
    else if table[0].0 == key then Some(table[0].1)
    else Lookup(table[1..], key)
  }

  /** The keys keep the table's declaration order: the keys of two runs of
      entries are the keys of each run in turn, and one entry contributes
      exactly its own key. */
  lemma KeysKeepOrder(a: seq<(string, string)>, b: seq<(string, string)>, key: string, value: string)
    ensures Keys(a + b) == Keys(a) + Keys(b)
    ensures Keys([(key, value)]) == [key]
  {
    var ab := Keys(a + b);
    forall i | 0 <= i < |ab|
      ensures ab[i] == (Keys(a) + Keys(b))[i]
    {
      if i < |a| {
        assert (a + b)[i] == a[i];
      } else {
        assert (a + b)[i] == b[i - |a|];
      }
    }
    assert Keys([(key, value)])[0] == key;
  }

  /** `Object.keys(flags)`. */
  const FlagLanguages := Keys(FlagTable)

  /** `flags[language] || flags.Spanish`: the flag of a known language, the
      Spanish flag for anything else. */
  function FlagFor(language: string): (code: string)
    ensures language in FlagLanguages ==> (language, code) in FlagTable
    ensures language !in FlagLanguages ==> code == SpanishFlag
  {
    match Lookup(FlagTable, language)
    case Some(c) => c
    case None => SpanishFlag
  }

  /** `levelColors[level] || "#A5D6A7"`. The lookup uses the level exactly as
      given; only the label shown on the card is upper-cased. */
  function LevelColor(level: string): (color: string)
    ensures level in Keys(LevelColorTable) ==> (level, color) in LevelColorTable
    ensures level !in Keys(LevelColorTable) ==> color == FallbackLevelColor
  {
    match Lookup(LevelColorTable, level)
    case Some(c) => c
    case None => FallbackLevelColor
  }

  /* ---------------------------------------------------------------------- */
  /* Language search                                                         */
  /* ---------------------------------------------------------------------- */

  /** `lang.toLowerCase().includes(search.toLowerCase())`. */
  function MatchesSearch(search: string): string -> bool {
    lang => Contains(Lower(lang), Lower(search))
  }

  /** The native/target language pickers' list: the keys, in order, whose
      lower-case form contains the lower-cased search text. */
  function FilterLanguages(keys: seq<string>, search: string): (r: seq<string>)
    ensures forall i :: 0 <= i < |r| ==> r[i] in keys && Contains(Lower(r[i]), Lower(search))
    ensures forall i :: 0 <= i < |keys| && Contains(Lower(keys[i]), Lower(search)) ==> keys[i] in r
  {
    Filter(MatchesSearch(search), keys)
  }

  /** With nothing typed, every language is offered, in table order. */
  lemma {:induction false} EmptySearchListsAll(keys: seq<string>)
    ensures FilterLanguages(keys, "") == keys
  {
    forall i | 0 <= i < |keys|
      ensures MatchesSearch("")(keys[i])
    {
      ContainsEmpty(Lower(keys[i]));
    }
    FilterAllKept(MatchesSearch(""), keys);
  }

  /** Searching over two runs of keys is searching each in turn, and a single
      key is listed once exactly when it matches: the matches are the
      matching keys, each once, in the order of the table. */
  lemma {:induction false} SearchKeepsOrder(a: seq<string>, b: seq<string>, key: string, search: string)
    ensures FilterLanguages(a + b, search) == FilterLanguages(a, search) + FilterLanguages(b, search)
    ensures FilterLanguages([key], search) == if MatchesSearch(search)(key) then [key] else []
  {
    FilterConcat(MatchesSearch(search), a, b);
    FilterSingleton(MatchesSearch(search), key);
  }

  lemma {:induction false} FilterSamePredicate(p: string -> bool, q: string -> bool, s: seq<string>)
    requires forall i :: 0 <= i < |s| ==> p(s[i]) == q(s[i])
    ensures Filter(p, s) == Filter(q, s)
  {
    if s != [] {
      FilterSamePredicate(p, q, s[1..]);
    }
  }

  /** The search ignores case: typing in capitals finds the same languages. */
  lemma {:induction false} SearchIgnoresCase(keys: seq<string>, search: string)
    ensures FilterLanguages(keys, search) == FilterLanguages(keys, Lower(search))
  {
    LowerIdempotent(search);
    FilterSamePredicate(MatchesSearch(search), MatchesSearch(Lower(search)), keys);
  }

  /* ---------------------------------------------------------------------- */
  /* Student count                                                           */
  /* ---------------------------------------------------------------------- */

  /** `handleStudentsChange`: `text.replace(/[^0-9]/g, "")`. */
  function StudentsChange(text: string): (r: string)
    ensures AllDigits(r)
    ensures |r| <= |text|
    ensures forall i :: 0 <= i < |text| && IsDigit(text[i]) ==> text[i] in r
  {
    Filter(IsDigit, text)
  }

  /** A digit-only input is left exactly as typed. */
  lemma StudentsChangeKeepsDigits(text: string)
    requires AllDigits(text)
    ensures StudentsChange(text) == text
  {
    FilterAllKept(IsDigit, text);
  }

  /** Cleaning the field twice changes nothing more. */
  lemma StudentsChangeIdempotent(text: string)
    ensures StudentsChange(StudentsChange(text)) == StudentsChange(text)
  {
    FilterIdempotent(IsDigit, text);
  }

  /** The digits survive in their original order: the cleaning of a
      concatenation is the concatenation of the cleanings, and one character
      survives exactly when it is a digit. */
  lemma StudentsChangeKeepsOrder(a: string, b: string, c: char)
    ensures StudentsChange(a + b) == StudentsChange(a) + StudentsChange(b)
    ensures StudentsChange([c]) == if IsDigit(c) then [c] else []
  {
    FilterConcat(IsDigit, a, b);
    FilterSingleton(IsDigit, c);
  }

  /** The field's initial text: `alumnos > 0 ? String(alumnos) : ""`. */
  function InitialStudentsInput(alumnos: int): (r: string)
    ensures AllDigits(r)
    ensures |r| > 1 ==> r[0] != '0'
    ensures r == "" <==> alumnos <= 0
    ensures alumnos > 0 ==> ParseDecimal(r) == alumnos
  {
    if alumnos > 0 then DecimalRoundTrip(alumnos); NatToDecimal(alumnos) else ""
  }

  /** `parseInt(input, 10)` on the digit-only field: `NaN` (here `None`) for
      the empty field, otherwise its decimal value. */
  function ParseStudents(input: string): (n: Option<nat>)
    requires AllDigits(input)
    ensures n.None? <==> input == ""
    ensures n.Some? ==> n.value == ParseDecimal(input)
  {
    if input == "" then None else Some(ParseDecimal(input))
  }

  /** The edit guard `!quantityNum || quantityNum <= 0` lets the request
      through exactly for a positive count. */
  function StudentCountAccepted(input: string): (ok: bool)
    requires AllDigits(input)
    ensures ok <==> exists i :: 0 <= i < |input| && input[i] != '0'
  {
    PositiveIffNonZeroDigit(input);
    var n := ParseStudents(input);
    n.Some? && n.value > 0
  }

  /** The field as the card mounted it passes the edit guard exactly for a
      positive count, and then reads back as that count. */
  lemma InitialCountIsAccepted(alumnos: int)
    ensures StudentCountAccepted(InitialStudentsInput(alumnos)) <==> alumnos > 0
    ensures alumnos > 0 ==> ParseStudents(InitialStudentsInput(alumnos)) == Some(alumnos)
  {
  }

  /* ---------------------------------------------------------------------- */
  /* Dates                                                                   */
  /* ---------------------------------------------------------------------- */

  /** A calendar date as `Date` reports it: `getDate()`, `getMonth()` (counted
      from 0) and `getFullYear()`. */
  datatype Date = Date(day: int, month0: int, year: int)

  predicate ValidDate(d: Date) {
    1 <= d.day <= 31 && 0 <= d.month0 <= 11
  }

  /** `formatDateDDMMYYYY`: `""` for a missing date, otherwise day and month
      (counted from 1) padded to two digits, then the year, joined by `-`. */
  function FormatDate(d: Option<Date>): (r: string)
    ensures d.None? <==> r == ""
    ensures d.Some? && ValidDate(d.value) ==>
              |r| >= 7 && r[2] == '-' && r[5] == '-' && r[6..] == IntToDecimal(d.value.year)
  {
    match d
    case None => ""
    case Some(date) =>
      var dd := PadStart2(IntToDecimal(date.day));
      var mm := PadStart2(IntToDecimal(date.month0 + 1));
      var yy := IntToDecimal(date.year);
      var r := dd + "-" + mm + "-" + yy;
      // A valid day and month are padded to exactly two digits each.
      if ValidDate(date) then
        TwoDigitRoundTrip(date.day);
        TwoDigitRoundTrip(date.month0 + 1);
        assert r[6..] == yy;
        r
      else r
  }

  /** Reads a `DD-MM-YYYY` string back into a date: the inverse of
      `FormatDate`, showing that the sent format loses no part of the date. */
  function ParseDate(s: string): (r: Option<Date>)
    ensures r.Some? ==> |s| >= 7 && s[2] == '-' && s[5] == '-'
  {
    if |s| >= 7 && s[2] == '-' && s[5] == '-' && AllDigits(s[..2]) && AllDigits(s[3..5]) then
      match ParseInteger(s[6..])
      case None => None
      case Some(y) => Some(Date(ParseDecimal(s[..2]), ParseDecimal(s[3..5]) - 1, y))
    else None
  }

  /** A day or month number prints as exactly two digits that read back as
      the same number. */
  lemma TwoDigitRoundTrip(n: int)
    requires 0 <= n < 100
    ensures |PadStart2(IntToDecimal(n))| == 2
    ensures AllDigits(PadStart2(IntToDecimal(n)))
    ensures ParseDecimal(PadStart2(IntToDecimal(n))) == n
  {
    var p := PadStart2(IntToDecimal(n));
    if n < 10 {
      assert p == ['0', DigitChar(n)];
      var zero := p[..1];
      assert zero == ['0'] && zero[..0] == [];
      assert ParseDecimal(zero) == 0;
      assert ParseDecimal(p) == 10 * ParseDecimal(zero) + DigitValue(p[1]);
    } else {
      DecimalRoundTrip(n);
    }
  }

  /** Reading back a string assembled from two two-digit fields and a year. */
  lemma ParseAssembledDate(dd: string, mm: string, yy: string)
    requires |dd| == 2 && |mm| == 2 && AllDigits(dd) && AllDigits(mm)
    requires ParseInteger(yy).Some?
    ensures ParseDate(dd + "-" + mm + "-" + yy)
            == Some(Date(ParseDecimal(dd), ParseDecimal(mm) - 1, ParseInteger(yy).value))
  {
    var s := dd + "-" + mm + "-" + yy;
    assert s[..2] == dd;
    assert s[2] == '-' && s[5] == '-';
    assert s[3..5] == mm;
    assert s[6..] == yy;
  }

  /** Every valid date is written as `DD-MM-Y…` and reads back unchanged. */
  lemma DateRoundTrip(d: Date)
    requires ValidDate(d)
    ensures ParseDate(FormatDate(Some(d))) == Some(d)
  {
    var dd := PadStart2(IntToDecimal(d.day));
    var mm := PadStart2(IntToDecimal(d.month0 + 1));
    var yy := IntToDecimal(d.year);
    TwoDigitRoundTrip(d.day);
    TwoDigitRoundTrip(d.month0 + 1);
    IntegerRoundTrip(d.year);
    ParseAssembledDate(dd, mm, yy);
    assert FormatDate(Some(d)) == dd + "-" + mm + "-" + yy;
  }

  lemma FormDatesReadBack(form: EditForm)
    ensures ValidDate(form.beginDate) ==> ParseDate(FormatDate(Some(form.beginDate))) == Some(form.beginDate)
    ensures ValidDate(form.endDate) ==> ParseDate(FormatDate(Some(form.endDate))) == Some(form.endDate)
  {
    if ValidDate(form.beginDate) {
      DateRoundTrip(form.beginDate);
    }
    if ValidDate(form.endDate) {
      DateRoundTrip(form.endDate);
    }
  }

  /* ---------------------------------------------------------------------- */
  /* The edit form                                                           */
  /* ---------------------------------------------------------------------- */

  /** The props the home screen passes to a card. */
  datatype Card = Card(
    alumnos: int,
    nivel: string,
    idiomaDeseado: string,
    idioma: string,
    exchangeId: Option<string>)

  /** The edit form's state. */
  datatype EditForm = EditForm(
    level: string,
    nativeLanguage: string,
    targetLanguage: string,
    studentsInput: string,
    beginDate: Date,
    endDate: Date)

  /** What the form's controls can do to it. A dismissed date picker reports
      no date (`selectedDate` undefined). */
  datatype FormEvent =
    | TypeStudents(text: string)
    | PickLevel(level: string)
    | PickNativeLanguage(language: string)
    | PickTargetLanguage(language: string)
    | PickBeginDate(picked: Option<Date>)
    | PickEndDate(picked: Option<Date>)

  /** The only producers of the students field keep it digit-only. */
  predicate ValidForm(f: EditForm) {
    AllDigits(f.studentsInput)
  }

  /** The form's state when the card mounts. Its `useState` initialisers run
      once per card instance, so this is the state the editor shows until the
      user changes it, whatever the props become later. The level and the
      languages come from the card's props, and both dates start as `today`. */
  function OpenForm(card: Card, today: Date): (f: EditForm)
    ensures f.level == card.nivel
    ensures f.nativeLanguage == card.idioma && f.targetLanguage == card.idiomaDeseado
    ensures f.beginDate == today && f.endDate == today
    ensures f.studentsInput == InitialStudentsInput(card.alumnos)
    ensures ValidForm(f)
    ensures StudentCountAccepted(f.studentsInput) <==> card.alumnos > 0
    ensures card.alumnos > 0 ==> ParseStudents(f.studentsInput) == Some(card.alumnos)
  {
    EditForm(card.nivel, card.idioma, card.idiomaDeseado,
             InitialStudentsInput(card.alumnos), today, today)
  }

  function ApplyFormEvent(f: EditForm, e: FormEvent): (g: EditForm)
    requires ValidForm(f)
    ensures ValidForm(g)
    ensures e.TypeStudents? ==> g.studentsInput == StudentsChange(e.text)
    ensures !e.TypeStudents? ==> g.studentsInput == f.studentsInput
    ensures g.level == if e.PickLevel? then e.level else f.level
    ensures g.nativeLanguage == if e.PickNativeLanguage? then e.language else f.nativeLanguage
    ensures g.targetLanguage == if e.PickTargetLanguage? then e.language else f.targetLanguage
    ensures g.beginDate == if e.PickBeginDate? && e.picked.Some? then e.picked.value else f.beginDate
    ensures g.endDate == if e.PickEndDate? && e.picked.Some? then e.picked.value else f.endDate
  {
    match e
    case TypeStudents(text) => f.(studentsInput := StudentsChange(text))
    case PickLevel(level) => f.(level := level)
    case PickNativeLanguage(language) => f.(nativeLanguage := language)
    case PickTargetLanguage(language) => f.(targetLanguage := language)
    case PickBeginDate(picked) => if picked.Some? then f.(beginDate := picked.value) else f
    case PickEndDate(picked) => if picked.Some? then f.(endDate := picked.value) else f
  }

  function ApplyFormEvents(f: EditForm, es: seq<FormEvent>): EditForm
    requires ValidForm(f)
    decreases |es|
  {
    if es == [] then f else ApplyFormEvents(ApplyFormEvent(f, es[0]), es[1..])
  }

  /** However the user edits the form, the students field stays digit-only, so
      the `parseInt` of the edit guard only ever sees digits. */
  lemma {:induction false} FormStaysValid(f: EditForm, es: seq<FormEvent>)
    requires ValidForm(f)
    ensures ValidForm(ApplyFormEvents(f, es))
    decreases |es|
  {
    if es != [] {
      FormStaysValid(ApplyFormEvent(f, es[0]), es[1..]);
    }
  }

  /* ---------------------------------------------------------------------- */
  /* Delete and edit requests                                                */
  /* ---------------------------------------------------------------------- */

  datatype Alert = Alert(title: string, message: string)

  /** Why no request was sent: a guard refused, or reading the stored token
      failed and the `catch` reported the store's error. */
  datatype Refusal =
    | MissingDeleteContext
    | MissingEditContext
    | NonPositiveStudents
    | TokenUnreadable(error: string)
  {
    function Message(): Alert {
      match this
      case TokenUnreadable(error) => Alert("Connection error", error)
      case MissingDeleteContext => Alert("Error", "Could not get the necessary information to delete.")
      case MissingEditContext => Alert("Error", "Could not get the necessary information to edit.")
      case NonPositiveStudents => Alert("Error", "The number of students must be greater than 0.")
    }
  }

  /** The JSON body of the edit call. */
  datatype EditBody = EditBody(
    token: string,
    nativeLanguage: string,
    targetLanguage: string,
    academicLevel: string,
    quantityStudents: nat,
    beginDate: string,
    endDate: string)

  /** Reading `userToken` from the secure store: the stored value, possibly
      missing, or the store's failure with its error message. */
  datatype StoredToken = Stored(token: Option<string>) | StoreFailed(message: string)

  /** What a button press asks for: nothing, `DELETE /api/exchanges/?id&token`
      or `PUT /api/exchanges/?id` with a body. */
  datatype Command =
    | NoCall(reason: Refusal)
    | SendDelete(id: string, token: string)
    | SendPut(id: string, body: EditBody)

  /** The guard of `handleDelete`: both the exchange id and the stored token
      must be non-empty. */
  function PlanDelete(exchangeId: Option<string>, token: Option<string>): (c: Command)
    ensures c.NoCall? <==> !Present(exchangeId) || !Present(token)
    ensures c.NoCall? ==> c.reason == MissingDeleteContext
    ensures !c.SendPut?
    ensures c.SendDelete? ==> Some(c.id) == exchangeId && Some(c.token) == token
  {
    if !Present(exchangeId) || !Present(token) then NoCall(MissingDeleteContext)
    else SendDelete(exchangeId.value, token.value)
  }

  /** What the card does once the delete call settles: the alert it shows and
      the id it hands to `onDeleteSuccess`, if any. */
  datatype DeleteOutcome = DeleteOutcome(alert: Alert, notified: Option<string>)

  /** Settling of the delete call for `exchangeId`. `hasCallback` is whether an
      `onDeleteSuccess` prop was given. */
  function OnDeleteReply(exchangeId: string, hasCallback: bool, reply: Reply<string>): (o: DeleteOutcome)
    ensures o.notified.Some? <==> reply.Ok() && hasCallback
    ensures o.notified.Some? ==> o.notified.value == exchangeId
    ensures reply.Ok() ==> o.alert.title == "Success"
    ensures reply.Reply? && !reply.Ok() ==>
              o.alert.title == "Error"
              && |reply.body| <= |o.alert.message|
              && o.alert.message[|o.alert.message| - |reply.body|..] == reply.body
    ensures reply.Unreachable? ==> o.alert == Alert("Connection error", reply.message)
  {
    match reply
    case Unreachable(message) => DeleteOutcome(Alert("Connection error", message), None)
    case Reply(_, text) =>
      if reply.Ok() then
        DeleteOutcome(Alert("Success", "Exchange has been successfully deleted."),
                      if hasCallback then Some(exchangeId) else None)
      else
        DeleteOutcome(Alert("Error", "Could not delete: " + text), None)
  }

  /** The whole of `handleDelete`: the request it makes and, when one is
      made, what follows from the server's `reply`. */
  datatype DeleteRun = DeleteRun(request: Command, outcome: DeleteOutcome)

  function HandleDelete(exchangeId: Option<string>, stored: StoredToken, hasCallback: bool,
                        reply: Reply<string>): (run: DeleteRun)
    ensures stored.StoreFailed? ==> run.request == NoCall(TokenUnreadable(stored.message))
    ensures stored.Stored? ==> run.request == PlanDelete(exchangeId, stored.token)
    ensures run.request.SendDelete? ==> run.outcome == OnDeleteReply(run.request.id, hasCallback, reply)
    ensures run.outcome.notified.Some? <==> run.request.SendDelete? && reply.Ok() && hasCallback
    ensures run.outcome.notified.Some? ==> run.outcome.notified == exchangeId
    ensures run.request.NoCall? ==> run.outcome == DeleteOutcome(run.request.reason.Message(), None)
  {
    var request :=
      match stored
      case StoreFailed(message) => NoCall(TokenUnreadable(message))
      case Stored(token) => PlanDelete(exchangeId, token);
    match request
    case SendDelete(id, _) => DeleteRun(request, OnDeleteReply(id, hasCallback, reply))
    case NoCall(reason) => DeleteRun(request, DeleteOutcome(reason.Message(), None))
  }

  /** The guards of `handleEdit`, in the order the code checks them: id and
      token first, then a positive student count. */
  function PlanEdit(exchangeId: Option<string>, token: Option<string>, form: EditForm): (c: Command)
    requires ValidForm(form)
    ensures !c.SendDelete?
    ensures c.NoCall? <==>
              !Present(exchangeId) || !Present(token) || !StudentCountAccepted(form.studentsInput)
    ensures c.NoCall? ==>
              c.reason == (if !Present(exchangeId) || !Present(token) then MissingEditContext
                           else NonPositiveStudents)
    ensures c.SendPut? ==>
              && Some(c.id) == exchangeId
              && Some(c.body.token) == token
              && c.body.quantityStudents > 0
              && Some(c.body.quantityStudents) == ParseStudents(form.studentsInput)
              && c.body.nativeLanguage == form.nativeLanguage
              && c.body.targetLanguage == form.targetLanguage
              && c.body.academicLevel == form.level
              && c.body.beginDate == FormatDate(Some(form.beginDate))
              && c.body.endDate == FormatDate(Some(form.endDate))
              && (ValidDate(form.beginDate) ==> ParseDate(c.body.beginDate) == Some(form.beginDate))
              && (ValidDate(form.endDate) ==> ParseDate(c.body.endDate) == Some(form.endDate))
  {
    if !Present(exchangeId) || !Present(token) then NoCall(MissingEditContext)
    else
      var quantity := ParseStudents(form.studentsInput);
      if quantity.None? || quantity.value <= 0 then NoCall(NonPositiveStudents)
      else
        FormDatesReadBack(form);
        SendPut(exchangeId.value, EditBody(
          token.value, form.nativeLanguage, form.targetLanguage, form.level,
          quantity.value, FormatDate(Some(form.beginDate)), FormatDate(Some(form.endDate))))
  }

  /** What the card does once the edit call settles: the alert, whether the
      editor closes, and whether the screen's `onRefresh` is invoked. */
  datatype EditOutcome = EditOutcome(alert: Alert, closeEditor: bool, refresh: bool)

  function OnEditReply(reply: Reply<string>): (o: EditOutcome)
    ensures o.refresh <==> reply.Ok()
    ensures reply.Ok() ==> o.alert.title == "Success"
    ensures o.closeEditor <==> reply.Ok()
    ensures reply.Reply? && !reply.Ok() ==>
              o.alert.title == "Error"
              && |reply.body| <= |o.alert.message|
              && o.alert.message[|o.alert.message| - |reply.body|..] == reply.body
    ensures reply.Unreachable? ==> o.alert == Alert("Connection error", reply.message)
  {
    match reply
    case Unreachable(message) => EditOutcome(Alert("Connection error", message), false, false)
    case Reply(_, text) =>
      if reply.Ok() then EditOutcome(Alert("Success", "The exchange has been successfully edited."), true, true)
      else EditOutcome(Alert("Error", "Could not edit: " + text), false, false)
  }

  /** The whole of `handleEdit`. */
  datatype EditRun = EditRun(request: Command, outcome: EditOutcome)

  function HandleEdit(exchangeId: Option<string>, stored: StoredToken, form: EditForm,
                      reply: Reply<string>): (run: EditRun)
    requires ValidForm(form)
    ensures stored.StoreFailed? ==> run.request == NoCall(TokenUnreadable(stored.message))
    ensures stored.Stored? ==> run.request == PlanEdit(exchangeId, stored.token, form)
    ensures run.request.SendPut? ==> run.outcome == OnEditReply(reply)
    ensures run.outcome.refresh <==> run.request.SendPut? && reply.Ok()
    ensures run.outcome.closeEditor <==> run.request.SendPut? && reply.Ok()
    ensures run.request.NoCall? ==>
              run.outcome == EditOutcome(run.request.reason.Message(), false, false)
  {
    var request :=
      match stored
      case StoreFailed(message) => NoCall(TokenUnreadable(message))
      case Stored(token) => PlanEdit(exchangeId, token, form);
    match request
    case SendPut(_, _) => EditRun(request, OnEditReply(reply))
    case NoCall(reason) => EditRun(request, EditOutcome(reason.Message(), false, false))
  }
}

=== FILE: seqs.dfy ===
/**
 Generic sequence operations shared by the screen model: the order-preserving
 `filter` of JavaScript arrays and the `reverse` used for display.
 */
module Seqs {

  /** The elements of `s` that satisfy `p`, in their original order
      (JavaScript's `Array.prototype.filter`). */
  function Filter<T>(p: T -> bool, s: seq<T>): (r: seq<T>)
    ensures |r| <= |s|
    ensures forall i :: 0 <= i < |r| ==> p(r[i])
    ensures forall i :: 0 <= i < |r| ==> r[i] in s
    ensures forall i :: 0 <= i < |s| && p(s[i]) ==> s[i] in r
  {
    if s == [] then []
    else if p(s[0]) then [s[0]] + Filter(p, s[1..])
    else Filter(p, s[1..])
  }

  /** Filtering distributes over concatenation: together with the one-element
      case this says the filter keeps the relative order of the survivors. */
  lemma {:induction false} FilterConcat<T>(p: T -> bool, a: seq<T>, b: seq<T>)
    ensures Filter(p, a + b) == Filter(p, a) + Filter(p, b)
  {
    if a == [] {
      assert a + b == b;
    } else {
      assert (a + b)[1..] == a[1..] + b;
      FilterConcat(p, a[1..], b);
    }
  }

  /** A one-element sequence survives exactly when its element satisfies `p`. */
  lemma FilterSingleton<T>(p: T -> bool, x: T)
    ensures Filter(p, [x]) == if p(x) then [x] else []
  {
    assert [x][1..] == [];
  }

  /** When every element already satisfies `p`, nothing is removed. */
  lemma {:induction false} FilterAllKept<T>(p: T -> bool, s: seq<T>)
    requires forall i :: 0 <= i < |s| ==> p(s[i])
    ensures Filter(p, s) == s
  {
    if s != [] {
      FilterAllKept(p, s[1..]);
    }
  }

  /** Filtering twice by the same predicate is filtering once. */
  lemma FilterIdempotent<T>(p: T -> bool, s: seq<T>)
    ensures Filter(p, Filter(p, s)) == Filter(p, s)
  {
    FilterAllKept(p, Filter(p, s));
  }

  /** The sequence read back to front (JavaScript's `[...s].reverse()`). */
  function Reverse<T>(s: seq<T>): (r: seq<T>)
    ensures |r| == |s|
    ensures forall i :: 0 <= i < |s| ==> r[i] == s[|s| - 1 - i]
  {
    if s == [] then [] else Reverse(s[1..]) + [s[0]]
  }

  /** Reversing is its own inverse, so the displayed list determines the state list. */
  lemma ReverseInvolution<T>(s: seq<T>)
    ensures Reverse(Reverse(s)) == s
  {
    var r := Reverse(Reverse(s));
    assert |r| == |s|;
    forall i | 0 <= i < |s|
      ensures r[i] == s[i]
    {
      assert r[i] == Reverse(s)[|s| - 1 - i];
    }
  }

  /** Reversal shows the same elements. */
  lemma ReverseSameElements<T>(s: seq<T>)
    ensures forall i :: 0 <= i < |s| ==> s[i] in Reverse(s)
    ensures forall i :: 0 <= i < |s| ==> Reverse(s)[i] in s
  {
    var r := Reverse(s);
    forall i | 0 <= i < |s|
      ensures s[i] in r
    {
      assert r[|s| - 1 - i] == s[i];
    }
  }
}

=== FILE: text.dfy ===
/**
 String helpers the screen relies on: decimal digits, `String(n)`,
 `parseInt(s, 10)` on digit strings, `padStart(2, "0")`, `toLowerCase` and
 `includes`. A Dafny `char` is a Unicode scalar value, where JavaScript
 counts UTF-16 code units; the two differ only in the length of a character
 above U+FFFF, and no result of these helpers depends on that length.
 */
module Text {
  import opened Optional

  predicate IsDigit(c: char) {
    '0' <= c <= '9'
  }

  predicate AllDigits(s: string) {
    forall i :: 0 <= i < |s| ==> IsDigit(s[i])
  }

  /** A JavaScript string is falsy exactly when it is missing or empty. */
  predicate Present(s: Option<string>) {
    s.Some? && s.value != ""
  }

  function DigitChar(d: nat): (c: char)
    requires d < 10
    ensures IsDigit(c)
  {
    ('0' as int + d) as char
  }

  function DigitValue(c: char): (d: nat)
    requires IsDigit(c)
    ensures d < 10 && DigitChar(d) == c
  {
    c as int - '0' as int
  }

  /** `String(n)` for a non-negative integer: its decimal digits, most
      significant first, with no leading zero. */
  function NatToDecimal(n: nat): (r: string)
    ensures |r| >= 1 && AllDigits(r)
    ensures |r| > 1 ==> r[0] != '0'
    ensures n < 10 <==> |r| == 1
  {
    if n < 10 then [DigitChar(n)] else NatToDecimal(n / 10) + [DigitChar(n % 10)]
  }

  /** The value of a string of decimal digits (`parseInt(s, 10)` once `s` is
      known to be non-empty and all digits); leading zeros are allowed. */
  function ParseDecimal(s: string): nat
    requires AllDigits(s)
  {
    if s == [] then 0 else 10 * ParseDecimal(s[..|s| - 1]) + DigitValue(s[|s| - 1])
  }

  /** A digit string is worth more than zero exactly when one of its digits
      is not `0`. */
  lemma {:induction false} PositiveIffNonZeroDigit(s: string)
    requires AllDigits(s)
    ensures ParseDecimal(s) > 0 <==> exists i :: 0 <= i < |s| && s[i] != '0'
  {
    if s != [] {
      var p := s[..|s| - 1];
      PositiveIffNonZeroDigit(p);
      assert forall i :: 0 <= i < |p| ==> p[i] == s[i];
      if ParseDecimal(p) > 0 {
        var i :| 0 <= i < |p| && p[i] != '0';
        assert s[i] != '0';
      } else if s[|s| - 1] != '0' {
        assert DigitValue(s[|s| - 1]) > 0;
      } else {
        forall i | 0 <= i < |s|
          ensures s[i] == '0'
        {
          if i < |p| {
            assert p[i] == s[i];
          }
        }
      }
    }
  }

  /** Printing then parsing gives the number back. */
  lemma {:induction false} DecimalRoundTrip(n: nat)
    ensures ParseDecimal(NatToDecimal(n)) == n
  {
    if n >= 10 {
      var r := NatToDecimal(n);
      assert r[..|r| - 1] == NatToDecimal(n / 10);
      DecimalRoundTrip(n / 10);
    }
  }

  /** A digit string's value is at least the value of its first digit. */
  lemma {:induction false} ParseAtLeastFirstDigit(s: string)
    requires |s| >= 1 && AllDigits(s)
    ensures ParseDecimal(s) >= DigitValue(s[0])
  {
    if |s| > 1 {
      var p := s[..|s| - 1];
      assert p[0] == s[0];
      ParseAtLeastFirstDigit(p);
    }
  }

  /** Parsing then printing gives back any digit string without leading zeros:
      together with `DecimalRoundTrip` this makes `NatToDecimal` a bijection
      onto the canonical digit strings. */
  lemma {:induction false} CanonicalRoundTrip(s: string)
    requires |s| >= 1 && AllDigits(s)
    requires |s| > 1 ==> s[0] != '0'
    ensures NatToDecimal(ParseDecimal(s)) == s
  {
    if |s| > 1 {
      var p := s[..|s| - 1];
      var d := DigitValue(s[|s| - 1]);
      assert p[0] == s[0];
      ParseAtLeastFirstDigit(p);
      assert ParseDecimal(p) >= 1;
      CanonicalRoundTrip(p);
      var n := ParseDecimal(s);
      assert n == 10 * ParseDecimal(p) + d;
      assert n / 10 == ParseDecimal(p) && n % 10 == d;
      assert s == p + [s[|s| - 1]];
    }
  }

  /** `String(y)` for any integer: a leading minus sign for negatives. */
  function IntToDecimal(y: int): (r: string)
    ensures |r| >= 1
    ensures y >= 0 <==> r[0] != '-'
    ensures r[0] != '-' ==> AllDigits(r) && (|r| > 1 ==> r[0] != '0')
    ensures r[0] == '-' ==>
              |r| >= 2 && AllDigits(r[1..]) && r[1..] != "0" && (|r| > 2 ==> r[1] != '0')
  {
    if y < 0 then "-" + NatToDecimal(-y) else NatToDecimal(y)
  }

  /** Reads an optionally negative decimal integer; `None` when the string is
      not of that form. The partner of `IntToDecimal`. */
  function ParseInteger(s: string): (r: Option<int>)
    ensures r.Some? && r.value < 0 ==> |s| >= 2 && s[0] == '-'
    ensures |s| >= 1 && AllDigits(s) ==> r == Some(ParseDecimal(s))
  {
    if |s| >= 2 && s[0] == '-' && AllDigits(s[1..]) then
      var magnitude: int := ParseDecimal(s[1..]); Some(-magnitude)
    else if |s| >= 1 && AllDigits(s) then Some(ParseDecimal(s))
    else None
  }

  lemma IntegerRoundTrip(y: int)
    ensures ParseInteger(IntToDecimal(y)) == Some(y)
  {
    var r := IntToDecimal(y);
    if y < 0 {
      assert r[1..] == NatToDecimal(-y);
      DecimalRoundTrip(-y);
    } else {
      DecimalRoundTrip(y);
    }
  }

  /** `String(s).padStart(2, "0")`: zeros in front until the string is at
      least two characters long; longer strings are left alone. */
  function PadStart2(s: string): (r: string)
    ensures |r| == if |s| >= 2 then |s| else 2
    ensures r[|r| - |s|..] == s
    ensures forall i :: 0 <= i < |r| - |s| ==> r[i] == '0'
  {
    if |s| >= 2 then s else if |s| == 1 then "0" + s else "00"
  }

  /** Lower-case mapping of one character. It covers every character whose
      lower case is an ASCII letter: `A`..`Z` and the Kelvin sign U+212A,
      which JavaScript lower-cases to `k`. */
  function LowerChar(c: char): (l: char)
    ensures 'A' <= c <= 'Z' ==> l as int == c as int + 32
    ensures c == '\U{212A}' ==> l == 'k'
    ensures !('A' <= c <= 'Z' || c == '\U{212A}') ==> l == c
    ensures !('A' <= l <= 'Z')
    ensures 'a' <= l <= 'z' ==> ('a' <= c <= 'z' || 'A' <= c <= 'Z' || c == '\U{212A}')
  {
    if 'A' <= c <= 'Z' then (c as int + 32) as char
    else if c == '\U{212A}' then 'k'
    else c
  }

  /** `toLowerCase` restricted to the characters whose lower case is an ASCII
      letter: capitals move down by 32, the Kelvin sign becomes `k`, every
      other character stays, and no capital is left. */
  function Lower(s: string): (r: string)
    ensures |r| == |s|
    ensures forall i :: 0 <= i < |r| ==> !('A' <= r[i] <= 'Z')
    ensures forall i :: 0 <= i < |s| && 'A' <= s[i] <= 'Z' ==> r[i] as int == s[i] as int + 32
    ensures forall i :: 0 <= i < |s| && s[i] == '\U{212A}' ==> r[i] == 'k'
    ensures forall i :: 0 <= i < |s| && !('A' <= s[i] <= 'Z') && s[i] != '\U{212A}' ==> r[i] == s[i]
  {
    seq(|s|, i requires 0 <= i < |s| => LowerChar(s[i]))
  }

  /** Lower-casing a lower-cased string changes nothing. */
  lemma LowerIdempotent(s: string)
    ensures Lower(Lower(s)) == Lower(s)
  {
    var l := Lower(s);
    assert Lower(l) == l by {
      forall i | 0 <= i < |l|
        ensures Lower(l)[i] == l[i]
      {
        assert !('A' <= l[i] <= 'Z');
        assert l[i] != '\U{212A}';
      }
    }
  }

  predicate OccursAt(hay: string, needle: string, i: nat) {
    i + |needle| <= |hay| && hay[i..i + |needle|] == needle
  }

  /** `hay.includes(needle)`: `needle` occurs somewhere in `hay`. */
  predicate Contains(hay: string, needle: string) {
    exists i: nat | i <= |hay| :: OccursAt(hay, needle, i)
  }

  /** The empty string occurs in every string. */
  lemma ContainsEmpty(hay: string)
    ensures Contains(hay, "")
  {
    assert OccursAt(hay, "", 0);
  }
}
